=== FILE: README.md ===
# tonic-rpc in Dafny

A functional model of the core of tonic-rpc, a library that serves a plain
Rust trait as a gRPC service. These parts are modelled:

- **The binding compiler** (`#[tonic_rpc(<codec>)]`, module `RpcMacro`).
  - It validates the trait's method attributes: `server_streaming`,
    `client_streaming` and `doc` are allowed, anything else aborts. It also
    rejects `self` receivers.
  - It derives one method descriptor per method item: the request and
    response type, a case-converted identifier, and two generated alias
    names.
  - It binds the service and every method to the codec the selector word
    picks, and declares one `type` alias per request and per response.
  - Every `panic!` of the compiler is an `Err` of `GenErrors.GenError`.
- **The earlier prototype compiler** (`generate_macro`, module `ProtoMacro`),
  modelled next to it so the two shape rules can be compared. It has a
  stricter arity rule and a string-literal default response. Its
  `generate_code` always emits the counter service.
- **The codec layer** (module `Codec`).
  - One generic `Codec` is parameterised by a serde strategy: bincode, CBOR,
    JSON or MessagePack.
  - Each strategy delegates to a foreign format library. A library is
    abstract here: a serialise/deserialise pair and a round-trip law
    (`Codec.RoundTrips`).
  - Library failures map to Internal statuses with fixed prefixes. A
    successful decode is always `Some`.
- **The generated counter bindings** (module `CountService`).
  - The server routes exactly `/counter.Count/Count` to the unary `count`
    handler. Every other path gets HTTP 200 with `grpc-status: 12`.
  - `poll_ready` is always ready.
  - The client targets the same path with the same codec. A failed readiness
    wait becomes status Unknown.
  - Interceptors are optional, on both sides.
- **The counter handler** (module `Counter`): one `i32` cell that starts at 0.
  Each `count` adds the request's amount and answers with the new total.

Supporting modules:

- `Outcomes`: `Option`, `Result`, and an ordered collect that stops at the
  first failure.
- `Syntax`: the parts of a Rust trait that the compilers inspect.
- `Status`: gRPC status codes and their numeric values.
- `Ints`: `i32` and its wrap-around.

Three things the model cannot compute are parameters:

- `camel`: the external case conversion of identifiers.
- `debug`: the `{:?}` rendering of an attribute.
- The byte formats of the four serde libraries.

## Model

| member | source | states |
|---|---|---|
| Outcomes.CollectAll | tonic-rpc-macro/src/lib.rs:236-243 | Mapping a fallible step over a list in order succeeds iff every element succeeds. The values are then the per-element values in order. Otherwise the error is the one of the first failing element. |
| Ints.Wrap | src/lib.rs:32 | The wrapped value is an `i32` congruent to the input modulo 2^32, and equal to the input when that is already in range. |
| Syntax.IntoPairs | tonic-rpc-macro/src/lib.rs:194 | `into_pairs` yields one pair per parameter, in order. Only the final parameter without a trailing comma is an `End` pair. |
| Syntax.MethodItems | tonic-rpc-macro/src/lib.rs:236-243 | The method items kept from a trait are exactly its method items. Nothing else is kept, and there are never more than the trait's items. |
| Syntax.MethodItemsAppend | tonic-rpc-macro/src/lib.rs:236-243 | Filtering keeps trait order: the methods of two concatenated item lists are the methods of the first list followed by those of the second. |
| Syntax.MethodItemsSingle | tonic-rpc-macro/src/lib.rs:236-243 | A single method item is kept as its method; a single non-method item is dropped. |
| GenErrors.Message | tonic-rpc-macro/src/lib.rs:173-279 | Every abort message is the source's text. An unsupported attribute gives "Attribute ", its debug rendering and " is not supported on tonic-rpc methods". A receiver gives the "'self' arguments are not allowed" prefix and the receiver's tokens. An empty selector gives "No tonic_rpc codec given". Any other bad selector gives "Unrecognized tonic_rpc codec " and the selector. The prototype's argument error (generate_macro/src/lib.rs:102,106) gives "Invalid rpc argument type". |
| GenErrors.UnrecognizedCodecMessageNamesSelector | tonic-rpc-macro/src/lib.rs:279 | Two rejected selectors with the same message are the same selector, so the message identifies the input. |
| Status.CodeNumber | src/counter_from_codegen.rs:150 | Every gRPC code has a number in 0..16. |
| Status.CodeFromNumber | src/counter_from_codegen.rs:150 | The inverse of the gRPC code table, which gives the header value its meaning: a number names a code iff it is at most 16, and that code's number is the number. |
| Status.CodeNumberRoundTrip | src/counter_from_codegen.rs:150 | Numbering the codes is injective: a code is recovered from its number. |
| Status.Decimal | src/counter_from_codegen.rs:150 | A header's decimal text is non-empty, all digits, and has no leading zero. |
| Status.DecimalRoundTrip | src/counter_from_codegen.rs:150 | Reading back a number's decimal text gives the number. |
| Codec.Write | tonic-rpc/src/codec.rs:94-174 | For every strategy, writing succeeds iff the library serialises, and appends exactly the library's bytes. A failure is the Internal status "Error serializing " followed by the library's diagnostic. |
| Codec.Read | tonic-rpc/src/codec.rs:94-174 | For every strategy, reading succeeds iff the library deserialises, and yields its value. A failure is the Internal status "Error deserializing " followed by the diagnostic. |
| Codec.Encode | tonic-rpc/src/codec.rs:30-36 | Encoding appends exactly the strategy's serialisation to the destination and adds nothing else. It fails exactly when the strategy's write fails, with the same status. |
| Codec.Decode | tonic-rpc/src/codec.rs:51-56 | A successful decode is always `Some` of the strategy's value, never `None`. It fails exactly when the read fails, with "Error deserializing …" at code Internal. |
| Codec.CodecEncoder | tonic-rpc/src/codec.rs:80-82 | The encoder of a `Codec` uses the codec's strategy. |
| Codec.CodecDecoder | tonic-rpc/src/codec.rs:84-86 | The decoder of a `Codec` uses the codec's strategy. |
| Codec.StrategyOfAlias | tonic-rpc/src/codec.rs:176-179 | A path names a strategy only when it is that strategy's alias path. A path that names none is no alias of any strategy. |
| Codec.AliasPathsDistinct | tonic-rpc/src/codec.rs:176-179 | Each of the four aliases fixes exactly one strategy: its path names that strategy and no other. |
| Codec.EncodeDecodeRoundTrip | tonic-rpc/src/codec.rs:30-56 | If the strategy's library obeys the round-trip law, then a message that encodes decodes back to itself. |
| Codec.AddCallSurvivesEveryStrategy | tonic-rpc/tests/codecs.rs:97-173 | Under every strategy with lawful libraries, an `(i32, i32)` request and an `i32` response survive the trip between client and server codecs. |
| RpcMacro.StripDoc | tonic-rpc-macro/src/lib.rs:164-171 | Stripping succeeds iff the tokens start with `= "` and end with a further `"`. The tokens are then exactly prefix + comment + quote. |
| RpcMacro.StripDocRecoversComment | tonic-rpc-macro/src/lib.rs:164-171 | Every comment text is recovered from the tokens of its `doc` attribute. |
| RpcMacro.DocCommentsSnoc | tonic-rpc-macro/src/lib.rs:163-171 | Doc comments are collected in attribute order. Appending an attribute appends its comment, if it has one. |
| RpcMacro.ParseAttributes | tonic-rpc-macro/src/lib.rs:153-177 | Succeeds iff every attribute is supported. Otherwise the error names the first unsupported attribute. Each streaming flag is set iff some attribute requests it. The docs are the stripped comments in order, with unstrippable ones dropped. |
| RpcMacro.FlagsIgnoreOrderAndRepeats | tonic-rpc-macro/src/lib.rs:158-162 | Two attribute lists with the same members give the same streaming flags, whatever the order and repetitions. |
| RpcMacro.ExtractArg | tonic-rpc-macro/src/lib.rs:181-189 | A typed parameter gives its type whether or not a comma follows it. A receiver aborts with its tokens in either position. |
| RpcMacro.ExtractArgs | tonic-rpc-macro/src/lib.rs:194 | Succeeds iff no parameter is a receiver, and then gives the types in order. Otherwise the error names the first receiver. |
| RpcMacro.MakeMethod | tonic-rpc-macro/src/lib.rs:180-227 | Succeeds iff all attributes are supported and no parameter is a receiver. Attributes are checked first, so an unsupported attribute always wins, and the error names the first unsupported attribute; with supported attributes, a failure is a receiver error naming a receiver parameter. On success: identifier = camel(name); both alias names; response `()` or the declared type; request is the single parameter's type or the tuple of all of them; flags and docs as parsed. |
| RpcMacro.RequestResponseName | tonic-rpc-macro/src/lib.rs:37-44 | A method's request and response names are its two generated aliases under `super::`. |
| RpcMacro.MethodCodecPath | tonic-rpc-macro/src/lib.rs:109-112 | Each method type's codec path is the alias path of its strategy in the codec module. |
| RpcMacro.ServiceCodecPath | tonic-rpc-macro/src/lib.rs:147-150 | For every strategy the service's codec path equals the method's, and it names exactly that strategy's alias. |
| RpcMacro.RustDefService.Comment | tonic-rpc-macro/src/lib.rs:137-139 | The service comment list is always empty. |
| RpcMacro.TypeAliases | tonic-rpc-macro/src/lib.rs:252-262 | Two aliases per method, in method order. The request alias is bound to the derived request type and the response alias to the response type. |
| RpcMacro.MakeMethods | tonic-rpc-macro/src/lib.rs:236-243 | Method items become descriptors in declaration order, with non-method items dropped. The first method that fails aborts with its error. |
| RpcMacro.MakeRpc | tonic-rpc-macro/src/lib.rs:229-269 | Fails iff some method fails, with that error. Otherwise: package `""`; name and identifier the trait's name; one descriptor per method item, in order, each the method's own descriptor bound to the codec; the aliases are those of its methods. |
| RpcMacro.SelectCodec | tonic-rpc-macro/src/lib.rs:273-280 | Exactly `json`, `bincode`, `cbor` and `messagepack` select a codec, each its own. `""` fails with "no codec". Anything else fails naming the selector. |
| RpcMacro.SelectorRoundTrip | tonic-rpc-macro/src/lib.rs:273-277 | Each strategy's selector word selects that strategy. |
| RpcMacro.TonicRpc | tonic-rpc-macro/src/lib.rs:272-281 | A bad selector aborts before the trait is looked at. A recognised selector gives exactly `make_rpc`'s result for the selected codec. On success the service uses the selected codec, its path names that codec's alias, and every method's codec path equals the service's. |
| RpcMacro.RequestShapeRule | tonic-rpc-macro/src/lib.rs:195-205 | A method with supported attributes and no receiver is accepted, and its request shape goes by parameter count: none gives `()`. One gives its own type, with a tuple never wrapped again. Two or more give the tuple of their types in declaration order. |
| RpcMacro.OnlyParameterSequenceMatters | tonic-rpc-macro/src/lib.rs:194-205 | The descriptor depends on the parameter list only through its sequence of parameters. A trailing comma makes no difference. |
| RpcMacro.ReferencedAliasesAreDeclared | tonic-rpc-macro/src/lib.rs:252-261 | In an expansion whose aliases are those of its methods (as `make_rpc` builds it), every alias a method's request/response name refers to is declared, bound to that method's derived type. |
| RpcMacro.CasingCollisionsAreAccepted | tonic-rpc-macro/src/lib.rs:216 | For any trait whose methods all have supported attributes and no receiver, two distinct methods whose names convert to the same identifier are both generated, each under its own name and both with that identifier. No collision check exists. |
| RpcMacro.CasingCollisionExample | tonic-rpc-macro/src/lib.rs:216 | Concretely, methods `get_total` and `getTotal` both generate when case conversion maps them to one identifier. |
| ProtoMacro.MyMethod.Comment | generate_macro/src/lib.rs:27-29 | The prototype's method comment list is always empty. |
| ProtoMacro.MyMethod.RequestResponseName | generate_macro/src/lib.rs:36-41 | The prototype names request and response by their own tokens, with no aliases. |
| ProtoMacro.MyService.Comment | generate_macro/src/lib.rs:65-67 | The prototype's service comment list is always empty. |
| ProtoMacro.MakeMethod | generate_macro/src/lib.rs:98-120 | Succeeds iff there is exactly one parameter, it is typed and no comma follows it. Otherwise "Invalid rpc argument type". The identifier equals the name; neither flag is set; the response is the literal `"()"` or the declared type. |
| ProtoMacro.MakeMethods | generate_macro/src/lib.rs:128-135 | Method items become descriptors in order, with other items dropped. The first failure aborts. |
| ProtoMacro.TonicRpc | generate_macro/src/lib.rs:122-149 | Succeeds iff every method item is accepted. The only failure is the invalid-argument abort. Package, name and identifier are all the trait's name. The methods are exactly `make_method` applied to each method item, in order. |
| ProtoMacro.AttributeIgnored | generate_macro/src/lib.rs:123 | The attribute argument has no effect on the outcome. |
| ProtoMacro.GenerateCode | generate_macro/src/lib.rs:74-96 | Whatever the input: service `Count` in package `counter`, with one non-streaming method `count`/`Count` over `super::CountRequest`/`super::CountResponse`. |
| ProtoMacro.CurrentRuleExtendsPrototype | generate_macro/src/lib.rs:98-111 | Whatever the prototype accepts, the current compiler accepts too (given supported attributes), with the same request type and the same declared response. With no return type they differ: the literal `"()"` against the unit type. |
| ProtoMacro.PrototypeRejectsWhatCurrentAccepts | generate_macro/src/lib.rs:100-107 | A method with no parameters, and one parameter followed by a trailing comma, are rejected by the prototype and accepted by the current compiler. |
| Counter.InitialState | src/lib.rs:55-57 | The served counter starts at 0. |
| Counter.Count | src/lib.rs:27-35 | The response total equals the stored value after the update, which is congruent to old total + amount modulo 2^32. Without overflow it is exactly that sum and the call replies, never with an error. The call panics iff it is a debug build and the sum leaves `i32`. |
| Counter.Replay | src/lib.rs:31-33 | A completed run answers each call once. |
| Counter.ReplaySums | src/lib.rs:31-33 | Without overflow, the k-th answer is the start plus the first k amounts, and the final state is the start plus all of them. |
| Counter.LastTotalIsSumFromStart | src/lib.rs:31-57 | From the initial state, the last answer is the sum of all amounts so far. |
| Counter.ReleaseWrapsAround | src/lib.rs:32 | `i32::MAX + 1` wraps to `i32::MIN` in a release build and panics in a debug build. |
| CountService.NewServer | src/counter_from_codegen.rs:90-94 | `new` stores no interceptor. |
| CountService.ServerWithInterceptor | src/counter_from_codegen.rs:95-99 | `with_interceptor` stores the given interceptor. |
| CountService.PollReady | src/counter_from_codegen.rs:110-112 | The server is always ready. |
| CountService.Call | src/counter_from_codegen.rs:113-155 | Routed to `count` iff the path is `/counter.Count/Count`, with the server's codec and an interceptor exactly when the server has one. Every other path gets HTTP 200, an empty body and the single header `grpc-status` = decimal of Unimplemented's number. There is no failure outcome. |
| CountService.ServeUnary | src/counter_from_codegen.rs:132-143 | The routed pipeline never answers with a bare HTTP response. A body that does not decode fails with the decoder's status and leaves the counter alone. A rejecting interceptor fails with its status and leaves the counter alone. A handler panic leaves the counter alone. Otherwise the counter takes the handler's new state and the answer is the encoded response or the encoder's status. |
| CountService.Handle | src/counter_from_codegen.rs:113-155 | Off-route requests leave the state unchanged and get the Unimplemented response. A routed request runs the unary pipeline with the server's codec and interceptor. |
| CountService.ServeAll | src/counter_from_codegen.rs:113-155 | Exactly one answer per request. |
| CountService.ServeAllStepwise | src/counter_from_codegen.rs:113-155 | Requests are served in turn, with any interceptor and on any path: the i-th answer and the state after it are what handling the i-th request gives at the state the first i requests left. |
| CountService.ServeAllReplays | src/counter_from_codegen.rs:113-155 | Without an interceptor, a run of routed requests that decode to given amounts ends in the counter's replay state for those amounts. Each answer is the replayed total, encoded, or the encoder's status. |
| CountService.UnknownPathsAreTransparent | src/counter_from_codegen.rs:147-153 | Over any request sequence, the final state is that of the routed requests alone. Every off-route request is answered Unimplemented. |
| CountService.NewClient | src/counter_from_codegen.rs:36-39 | A new client has no interceptor. |
| CountService.ClientWithInterceptor | src/counter_from_codegen.rs:40-43 | `with_interceptor` stores the given interceptor. |
| CountService.ClientCount | src/counter_from_codegen.rs:44-57 | A readiness failure becomes status Unknown "Service was not ready: " + error. Otherwise a unary call with the request, the server's codec type and a path every server routes to `count`. |
| CountService.Send | src/counter_from_codegen.rs:54-56 | Sending succeeds iff the interceptor (if any) admits the metadata and the message encodes. The sent request keeps the call's path, carries the metadata the interceptor returned and exactly the encoded message. |
| CountService.CountCallRoundTrip | src/counter_from_codegen.rs:44-57 | Assume a ready channel, a lawful codec, no interceptors and no overflow. Then a call reaches the handler with its amount, the server stores total + amount, and the client decodes that total. |
| CountService.RouteMatchesDescriptor | src/counter_from_codegen.rs:173-175 | `NAME` is the `package.Service` segment of the routed path, and both agree with the descriptor the prototype's `generate_code` builds. |

## Left out

- Byte layouts of bincode, CBOR, JSON and MessagePack: these are foreign libraries. Each is an abstract function pair with a round-trip law assumed where a property needs it. Partial writes left in the buffer before a failure are not modelled.
- The transport library's client and server generators: they derive paths and method bodies from the descriptor, and their code is not part of this model. The routed path `/counter.Count/Count` appears as the literal the generated file contains.
- Case conversion of identifiers: an external library, taken as the parameter `camel`.
- `{:?}` rendering of attributes in the abort message: taken as the parameter `debug`.
- Token-stream parsing (`parse_macro_input!` failing on a non-trait item) and `quote!` output: the compilers work on the abstract syntax in `Syntax`. `generate_code` takes its ignored input as a list of strings.
- src/json_codec.rs and tonic-rpc/src/json_codec.rs are not part of this model: they are thin JSON wrappers that print debug output. Their `MyCodec` appears only as the codec type name and as a `CountCodecs` pair of message functions.
- The prototype's `eprintln!` of the token stream and of the parsed trait (generate_macro/src/lib.rs:124,126) is debug output on standard error and is left out.
- The transport library's unary pipeline (`Grpc::unary`, `Grpc::with_interceptor`) is not part of this model. `CountService.ServeUnary` assumes that library's order: decode the body, run the interceptor on the metadata, call the handler, encode the answer. `CountService.Send` runs the client interceptor before encoding. In both, the interceptor sees only the metadata.
- src/main.rs is not part of this model: it repeats the generated module, the codec and the handler, glued to a command line.
- The front ends (src/bin/main.rs, example/src/main.rs) and `run_server`'s socket setup are I/O.
- Concurrency is not modelled: the `Mutex` only serialises calls, so calls are applied one after another. Lock poisoning after a debug-build panic is not modelled: after `Panicked` the model keeps the old state. In the program every later `count` call then panics at `self.0.lock().unwrap()` (src/lib.rs:31), while the model's `ServeAll` keeps answering them normally.
- Streaming calls, tokio tasks, channels, HTTP/2 framing and TLS are left out; only the unary `count` exchange is modelled.
- The test suites are evidence only. tonic-rpc/tests/unary_test.rs uses a bare `#[tonic_rpc]`, which the current selector rejects (`RpcMacro.SelectCodec` maps `""` to `NoCodec`).
- Identifier collisions after case conversion are not detected: the code performs no such check; the model follows the code (`RpcMacro.CasingCollisionsAreAccepted`).
- Counter.Replay: its own contract states only the number of answers. The sums are stated by `Counter.ReplaySums` under a no-overflow precondition, because `+=` on overflow depends on the build profile (`Counter.Count` states both behaviours).

=== FILE: codec.dfy ===
/** The pluggable codec layer (`tonic-rpc/src/codec.rs`). One generic codec
    is parameterised by a serde strategy; each of the four strategies wraps a
    foreign format library whose byte layout is not modelled: a library is a
    pair of functions, and the round-trip law it is relied on to satisfy is
    the predicate `RoundTrips`. */
module Codec {
  import opened Outcomes
  import opened Status
  import opened Ints

  type Byte = x: int | 0 <= x < 256
  type Bytes = seq<Byte>

  /** The four `SerdeCodec` implementations. */
  datatype Strategy = Bincode | Cbor | Json | MessagePack

  /** A format library at one value type: serialisation may fail, and so may
      deserialisation; failures carry the library's diagnostic text. */
  datatype Format<!T> = Format(serialize: T -> Result<Bytes, string>, deserialize: Bytes -> Result<T, string>)

  /** The law the byte formats are assumed to obey: whatever was serialised
      deserialises to the same value. */
  ghost predicate RoundTrips<T(!new)>(f: Format<T>) {
    forall v :: f.serialize(v).Ok? ==> f.deserialize(f.serialize(v).value) == Ok(v)
  }

  /** The four foreign libraries (bincode, serde_cbor, serde_json, rmp_serde)
      at one value type. */
  datatype Libraries<!T> = Libraries(bincode: Format<T>, cbor: Format<T>, json: Format<T>, messagePack: Format<T>)

  /** The library a strategy delegates to. */
  function FormatOf<T>(libs: Libraries<T>, s: Strategy): Format<T> {
    match s
    case Bincode => libs.bincode
    case Cbor => libs.cbor
    case Json => libs.json
    case MessagePack => libs.messagePack
  }

  const SerializingPrefix: string := "Error serializing "
  const DeserializingPrefix: string := "Error deserializing "

  /** `SerdeCodec::write`: append the serialisation of `item` to the bytes
      `w` already holds; a library failure becomes an Internal status naming it. All
      four strategies share this mapping. */
  function Write<T>(s: Strategy, libs: Libraries<T>, item: T, w: Bytes): (r: Result<Bytes, Status>)
    ensures r.Ok? <==> FormatOf(libs, s).serialize(item).Ok?
    ensures r.Ok? ==> r.value == w + FormatOf(libs, s).serialize(item).value
    ensures r.Err? ==> r.error == Status(Internal, SerializingPrefix + FormatOf(libs, s).serialize(item).error)
  {
    match FormatOf(libs, s).serialize(item)
    case Ok(bytes) => Ok(w + bytes)
    case Err(diagnostic) => Err(Status(Internal, SerializingPrefix + diagnostic))
  }

  /** `SerdeCodec::read`: deserialise a value from the reader's bytes. */
  function Read<T>(s: Strategy, libs: Libraries<T>, src: Bytes): (r: Result<T, Status>)
    ensures r.Ok? <==> FormatOf(libs, s).deserialize(src).Ok?
    ensures r.Ok? ==> r.value == FormatOf(libs, s).deserialize(src).value
    ensures r.Err? ==> r.error == Status(Internal, DeserializingPrefix + FormatOf(libs, s).deserialize(src).error)
  {
    match FormatOf(libs, s).deserialize(src)
    case Ok(v) => Ok(v)
    case Err(diagnostic) => Err(Status(Internal, DeserializingPrefix + diagnostic))
  }

  /** `Encoder<C, T>`: carries no state beyond its strategy and value type. */
  datatype Encoder<T> = Encoder(strategy: Strategy)

  /** `Decoder<C, U>`: carries no state beyond its strategy and value type. */
  datatype Decoder<U> = Decoder(strategy: Strategy)

  /** `Encoder::encode`: append the serialised item to the destination
      buffer, nothing more. */
  function Encode<T>(e: Encoder<T>, libs: Libraries<T>, item: T, dst: Bytes): (r: Result<Bytes, Status>)
    ensures r.Ok? <==> FormatOf(libs, e.strategy).serialize(item).Ok?
    ensures r.Ok? ==> r.value == dst + FormatOf(libs, e.strategy).serialize(item).value
    ensures r.Err? ==> r.error == Status(Internal, SerializingPrefix + FormatOf(libs, e.strategy).serialize(item).error)
  {
    Write(e.strategy, libs, item, dst)
  }

  /** `Decoder::decode`: a successful read always yields a value, never the
      "no message" answer `None`. */
  function Decode<U>(d: Decoder<U>, libs: Libraries<U>, src: Bytes): (r: Result<Option<U>, Status>)
    ensures r.Ok? <==> FormatOf(libs, d.strategy).deserialize(src).Ok?
    ensures r.Ok? ==> r.value == Some(FormatOf(libs, d.strategy).deserialize(src).value)
    ensures r.Err? ==> r.error == Status(Internal, DeserializingPrefix + FormatOf(libs, d.strategy).deserialize(src).error)
  {
    var v :- Read(d.strategy, libs, src);
    Ok(Some(v))
  }

  /** `Codec<C, T, U>`: encodes `T` and decodes `U` with one strategy. */
  datatype Codec<T, U> = Codec(strategy: Strategy)

  /** A fresh encoder for every message, with the codec's strategy. */
  function CodecEncoder<T, U>(c: Codec<T, U>): (e: Encoder<T>)
    ensures e.strategy == c.strategy
  {
    Encoder(c.strategy)
  }

  /** A fresh decoder for every message, with the codec's strategy. */
  function CodecDecoder<T, U>(c: Codec<T, U>): (d: Decoder<U>)
    ensures d.strategy == c.strategy
  {
    Decoder(c.strategy)
  }

  /** The type aliases `BincodeCodec`, `CborCodec`, `JsonCodec`,
      `MessagePackCodec`, by their name in the crate. */
  function AliasName(s: Strategy): string {
    match s
    case Bincode => "BincodeCodec"
    case Cbor => "CborCodec"
    case Json => "JsonCodec"
    case MessagePack => "MessagePackCodec"
  }

  /** The absolute path of an alias, as generated code refers to it. */
  function AliasPath(s: Strategy): string {
    "::tonic_rpc::codec::" + AliasName(s)
  }

  /** The alias a path names, if any: each alias fixes exactly one strategy. */
  function StrategyOfAlias(path: string): (r: Option<Strategy>)
    ensures r.Some? ==> AliasPath(r.value) == path
    ensures r.None? ==> forall s: Strategy :: AliasPath(s) != path
  {
    if path == AliasPath(Bincode) then Some(Bincode)
    else if path == AliasPath(Cbor) then Some(Cbor)
    else if path == AliasPath(Json) then Some(Json)
    else if path == AliasPath(MessagePack) then Some(MessagePack)
    else None
  }

  /** The four alias paths are pairwise distinct, so a path names at most
      one strategy. */
  lemma AliasPathsDistinct(s: Strategy)
    ensures StrategyOfAlias(AliasPath(s)) == Some(s)
  {
    assert AliasPath(Bincode)[20] == 'B';
    assert AliasPath(Cbor)[20] == 'C';
    assert AliasPath(Json)[20] == 'J';
    assert AliasPath(MessagePack)[20] == 'M';
  }

  /** A codec as the transport uses it at one message type: encode a message
      into a fresh buffer, decode a message from a frame. */
  datatype MessageCodec<!T> = MessageCodec(encode: T -> Result<Bytes, Status>, decode: Bytes -> Result<T, Status>)

  ghost predicate MessageRoundTrips<T(!new)>(mc: MessageCodec<T>) {
    forall v :: mc.encode(v).Ok? ==> mc.decode(mc.encode(v).value) == Ok(v)
  }

  /** The transport's view of one strategy: encode into an empty buffer, and
      decode, where a decoded message is always present. */
  function AsMessageCodec<T>(s: Strategy, libs: Libraries<T>): MessageCodec<T> {
    MessageCodec(
      v => Encode(Encoder(s), libs, v, []),
      b => var d := Decode(Decoder(s), libs, b); if d.Err? then Err(d.error) else Ok(d.value.value))
  }

  /** Under the library's round-trip law, what one side encodes the other
      side decodes to the same value. */
  lemma EncodeDecodeRoundTrip<T(!new)>(s: Strategy, libs: Libraries<T>)
    requires RoundTrips(FormatOf(libs, s))
    ensures MessageRoundTrips(AsMessageCodec(s, libs))
  {
    var mc := AsMessageCodec(s, libs);
    forall v | mc.encode(v).Ok?
      ensures mc.decode(mc.encode(v).value) == Ok(v)
    {
      var f := FormatOf(libs, s);
      var bytes := Encode(Encoder(s), libs, v, []).value;
      assert bytes == f.serialize(v).value;
      assert f.deserialize(bytes) == Ok(v);
    }
  }

  /** The strategy-independent request/response shapes of an `add(x: i32,
      y: i32) -> i32` service survive the trip under every strategy whose
      libraries obey the law and serialise those shapes without failing. */
  lemma AddCallSurvivesEveryStrategy(reqLibs: Libraries<(I32, I32)>, respLibs: Libraries<I32>, s: Strategy, x: I32, y: I32, z: I32)
    requires RoundTrips(FormatOf(reqLibs, s)) && RoundTrips(FormatOf(respLibs, s))
    requires FormatOf(reqLibs, s).serialize((x, y)).Ok? && FormatOf(respLibs, s).serialize(z).Ok?
    ensures var client: Codec<(I32, I32), I32> := Codec(s);
            var server: Codec<I32, (I32, I32)> := Codec(s);
            && Encode(CodecEncoder(client), reqLibs, (x, y), []).Ok?
            && Decode(CodecDecoder(server), reqLibs, Encode(CodecEncoder(client), reqLibs, (x, y), []).value) == Ok(Some((x, y)))
            && Encode(CodecEncoder(server), respLibs, z, []).Ok?
            && Decode(CodecDecoder(client), respLibs, Encode(CodecEncoder(server), respLibs, z, []).value) == Ok(Some(z))
  {
    assert [] + FormatOf(reqLibs, s).serialize((x, y)).value == FormatOf(reqLibs, s).serialize((x, y)).value;
    assert [] + FormatOf(respLibs, s).serialize(z).value == FormatOf(respLibs, s).serialize(z).value;
  }
}

=== FILE: count_service.dfy ===
/** The generated bindings of the counter service (`counter_from_codegen`):
    a server that routes exactly one path to the `count` handler and answers
    every other path with the gRPC status Unimplemented, and a client whose
    one operation targets that path with the same codec. The transport's own
    framing is not modelled: a request arrives as its path, metadata and
    encoded message; the codec is given as a pair of message functions. */
module CountService {
  import opened Outcomes
  import opened Status
  import opened Counter
  import opened Codec
  import ProtoMacro
  import opened Ints

  type Header = (string, string)
  type Metadata = seq<Header>

  datatype HttpRequest = HttpRequest(path: string, metadata: Metadata, body: Bytes)
  datatype HttpResponse = HttpResponse(status: nat, headers: seq<Header>, body: Bytes)

  /** An interceptor sees the request metadata and may reject the call. */
  datatype Interceptor = Interceptor(intercept: Metadata -> Result<Metadata, Status>)

  /** The codec `MyCodec` at the two message types of the service. */
  datatype CountCodecs = CountCodecs(request: MessageCodec<CountRequest>, response: MessageCodec<CountResponse>)

  /** The one routed path (the server's match arm). */
  const CountPath: string := "/counter.Count/Count"

  /** `NamedService::NAME`. */
  const ServiceName: string := "counter.Count"

  /** The codec type the server route builds. */
  const ServerCodec: string := "crate::json_codec::MyCodec"

  /** The codec type the client operation builds. */
  const ClientCodec: string := "crate::json_codec::MyCodec"

  // ---------------------------------------------------------------------
  // Server
  // ---------------------------------------------------------------------

  /** `CountServer<T>`: the shared handler plus an optional interceptor. */
  datatype CountServer = CountServer(interceptor: Option<Interceptor>)

  /** `CountServer::new`: no interceptor. */
  function NewServer(): (s: CountServer)
    ensures s.interceptor.None?
  {
    CountServer(None)
  }

  /** `CountServer::with_interceptor`: the given interceptor. */
  function ServerWithInterceptor(i: Interceptor): (s: CountServer)
    ensures s.interceptor.Some? && s.interceptor.value == i
  {
    CountServer(Some(i))
  }

  datatype Poll<T> = Ready(value: T) | Pending

  /** `poll_ready`: the server never applies back-pressure. Its error type
      is uninhabited, so readiness carries no value. */
  function PollReady(s: CountServer): (p: Poll<()>)
    ensures p.Ready?
  {
    Ready(())
  }

  /** The server-side `tonic::server::Grpc` a route builds. */
  datatype ServerGrpc = ServerGrpc(codec: string, interceptor: Option<Interceptor>)

  /** What a call turns into: the unary pipeline of the `count` route, or an
      immediate HTTP response. There is no error outcome: dispatch never
      fails. */
  datatype Dispatch = CountRoute(grpc: ServerGrpc) | Immediate(response: HttpResponse)

  /** The fallback response: HTTP 200 with `grpc-status: 12`, empty body. */
  const Unimplemented12: HttpResponse := HttpResponse(200, [("grpc-status", "12")], [])

  /** `Service::call`: routing on the request path. The route builds a
      `Grpc` with the server's interceptor exactly when it has one. */
  function Call(s: CountServer, req: HttpRequest): (d: Dispatch)
    ensures d.CountRoute? <==> req.path == CountPath
    ensures d.CountRoute? ==> d.grpc.codec == ServerCodec && d.grpc.interceptor == s.interceptor
    ensures d.Immediate? ==> && d.response.status == 200 && d.response.body == []
                             && |d.response.headers| == 1 && d.response.headers[0].0 == "grpc-status"
                             && d.response.headers[0].1 == Decimal(CodeNumber(Unimplemented))
  {
    match req.path
    case "/counter.Count/Count" =>
      var grpc := match s.interceptor
        case Some(i) => ServerGrpc(ServerCodec, Some(i))
        case None => ServerGrpc(ServerCodec, None);
      CountRoute(grpc)
    case _ => Immediate(Unimplemented12)
  }

  /** The outcome of serving one request. */
  datatype Reply = Message(body: Bytes) | Failed(status: Status) | HandlerPanicked | Http(response: HttpResponse)

  /** What an optional interceptor makes of a request's metadata: without
      one every call is admitted unchanged. */
  function Admit(interceptor: Option<Interceptor>, md: Metadata): (r: Result<Metadata, Status>)
    ensures interceptor.None? ==> r == Ok(md)
    ensures interceptor.Some? ==> r == interceptor.value.intercept(md)
  {
    match interceptor
    case None => Ok(md)
    case Some(i) => i.intercept(md)
  }

  /** The unary pipeline of the `count` route, in the order of the transport
      library's server-side unary call: the message is decoded; the
      interceptor (if any) may reject the call; the handler runs; its answer
      is encoded. The handler's state change stands even if encoding the
      answer fails. */
  function ServeUnary(grpc: ServerGrpc, codecs: CountCodecs, profile: Profile, s: State, req: HttpRequest): (out: (State, Reply))
    ensures !out.1.Http?
    ensures out.0 != s ==> out.1.Message? || (out.1.Failed? && codecs.response.encode(CountResponse(out.0.total)).Err?)
    ensures codecs.request.decode(req.body).Err? ==> out == (s, Failed(codecs.request.decode(req.body).error))
    ensures (codecs.request.decode(req.body).Ok? && Admit(grpc.interceptor, req.metadata).Err?) ==>
      out == (s, Failed(Admit(grpc.interceptor, req.metadata).error))
    ensures (codecs.request.decode(req.body).Ok? && Admit(grpc.interceptor, req.metadata).Ok?
             && Count(profile, s, codecs.request.decode(req.body).value).Panicked?) ==>
      out == (s, HandlerPanicked)
    ensures (codecs.request.decode(req.body).Ok? && Admit(grpc.interceptor, req.metadata).Ok?
             && Count(profile, s, codecs.request.decode(req.body).value).Replied?) ==>
      out.0 == Count(profile, s, codecs.request.decode(req.body).value).next
    ensures (codecs.request.decode(req.body).Ok? && Admit(grpc.interceptor, req.metadata).Ok?
             && Count(profile, s, codecs.request.decode(req.body).value).Replied?
             && codecs.response.encode(Count(profile, s, codecs.request.decode(req.body).value).response).Ok?) ==>
      out.1 == Message(codecs.response.encode(Count(profile, s, codecs.request.decode(req.body).value).response).value)
    ensures (codecs.request.decode(req.body).Ok? && Admit(grpc.interceptor, req.metadata).Ok?
             && Count(profile, s, codecs.request.decode(req.body).value).Replied?
             && codecs.response.encode(Count(profile, s, codecs.request.decode(req.body).value).response).Err?) ==>
      out.1 == Failed(codecs.response.encode(Count(profile, s, codecs.request.decode(req.body).value).response).error)
  {
    match codecs.request.decode(req.body)
    case Err(st) => (s, Failed(st))
    case Ok(request) =>
      match Admit(grpc.interceptor, req.metadata)
      case Err(st) => (s, Failed(st))
      case Ok(_) =>
        match Count(profile, s, request)
        case Panicked => (s, HandlerPanicked)
        case Replied(next, response) =>
          match codecs.response.encode(response)
          case Err(st) => (next, Failed(st))
          case Ok(body) => (next, Message(body))
  }

  /** Routing plus, on the `count` path, the unary pipeline. */
  function Handle(srv: CountServer, codecs: CountCodecs, profile: Profile, s: State, req: HttpRequest): (out: (State, Reply))
    ensures req.path != CountPath ==> out == (s, Http(Unimplemented12))
    ensures req.path == CountPath ==> !out.1.Http?
    ensures req.path == CountPath ==> out == ServeUnary(ServerGrpc(ServerCodec, srv.interceptor), codecs, profile, s, req)
  {
    match Call(srv, req)
    case Immediate(resp) => (s, Http(resp))
    case CountRoute(grpc) => ServeUnary(grpc, codecs, profile, s, req)
  }

  /** A server processing requests one after another. */
  function ServeAll(srv: CountServer, codecs: CountCodecs, profile: Profile, s: State, reqs: seq<HttpRequest>): (out: (State, seq<Reply>))
    ensures |out.1| == |reqs|
  {
    if |reqs| == 0 then (s, [])
    else
      var (mid, replies) := ServeAll(srv, codecs, profile, s, reqs[..|reqs| - 1]);
      var (next, reply) := Handle(srv, codecs, profile, mid, reqs[|reqs| - 1]);
      (next, replies + [reply])
  }

  /** Requests are served strictly in turn: the i-th answer, and the state
      after it, are what `Handle` gives for the i-th request at the state the
      earlier requests left, whatever the interceptor and the paths. */
  lemma {:induction false} ServeAllStepwise(srv: CountServer, codecs: CountCodecs, profile: Profile, s: State, reqs: seq<HttpRequest>, i: nat)
    requires i < |reqs|
    ensures ServeAll(srv, codecs, profile, s, reqs).1[i]
            == Handle(srv, codecs, profile, ServeAll(srv, codecs, profile, s, reqs[..i]).0, reqs[i]).1
    ensures ServeAll(srv, codecs, profile, s, reqs[..i + 1]).0
            == Handle(srv, codecs, profile, ServeAll(srv, codecs, profile, s, reqs[..i]).0, reqs[i]).0
  {
    var n := |reqs| - 1;
    if i < n {
      ServeAllStepwise(srv, codecs, profile, s, reqs[..n], i);
      assert reqs[..n][..i] == reqs[..i];
      assert reqs[..n][..i + 1] == reqs[..i + 1];
    } else {
      assert reqs[..i + 1] == reqs;
    }
  }

  /** Without an interceptor, a run of well-formed `count` requests is the
      counter's replay of their amounts: the server ends where the replay
      ends, and each answer is the replayed total, encoded, or the encoder's
      status. */
  lemma {:induction false} ServeAllReplays(srv: CountServer, codecs: CountCodecs, profile: Profile, s: State, reqs: seq<HttpRequest>, amounts: seq<I32>)
    requires srv.interceptor.None?
    requires |amounts| == |reqs|
    requires forall i :: 0 <= i < |reqs| ==> reqs[i].path == CountPath
    requires forall i :: 0 <= i < |reqs| ==> codecs.request.decode(reqs[i].body) == Ok(CountRequest(amounts[i]))
    requires Replay(profile, s, amounts).Some?
    ensures ServeAll(srv, codecs, profile, s, reqs).0 == Replay(profile, s, amounts).value.0
    ensures forall i :: 0 <= i < |reqs| && codecs.response.encode(CountResponse(Replay(profile, s, amounts).value.1[i])).Ok? ==>
      ServeAll(srv, codecs, profile, s, reqs).1[i] == Message(codecs.response.encode(CountResponse(Replay(profile, s, amounts).value.1[i])).value)
    ensures forall i :: 0 <= i < |reqs| && codecs.response.encode(CountResponse(Replay(profile, s, amounts).value.1[i])).Err? ==>
      ServeAll(srv, codecs, profile, s, reqs).1[i] == Failed(codecs.response.encode(CountResponse(Replay(profile, s, amounts).value.1[i])).error)
  {
    if |reqs| > 0 {
      var n := |reqs| - 1;
      var init, initAmounts := reqs[..n], amounts[..n];
      var prev := Replay(profile, s, initAmounts);
      assert prev.Some?;
      ServeAllReplays(srv, codecs, profile, s, init, initAmounts);
      var mid := ServeAll(srv, codecs, profile, s, init).0;
      assert mid == prev.value.0;
      var h := Count(profile, mid, CountRequest(amounts[n]));
      assert h.Replied?;
      var last := reqs[n];
      assert Admit(srv.interceptor, last.metadata).Ok?;
      assert Handle(srv, codecs, profile, mid, last) == ServeUnary(ServerGrpc(ServerCodec, srv.interceptor), codecs, profile, mid, last);
      assert Replay(profile, s, amounts).value == (h.next, prev.value.1 + [h.response.total]);
    }
  }

  /** The requests on the routed path, in order. */
  function Routed(reqs: seq<HttpRequest>): seq<HttpRequest> {
    if |reqs| == 0 then []
    else Routed(reqs[..|reqs| - 1]) + (if reqs[|reqs| - 1].path == CountPath then [reqs[|reqs| - 1]] else [])
  }

  /** Requests on unknown paths are answered with Unimplemented and leave the
      counter alone: the server ends in the state it would reach from the
      routed requests alone, and keeps serving. */
  lemma {:induction false} UnknownPathsAreTransparent(srv: CountServer, codecs: CountCodecs, profile: Profile, s: State, reqs: seq<HttpRequest>)
    ensures ServeAll(srv, codecs, profile, s, reqs).0 == ServeAll(srv, codecs, profile, s, Routed(reqs)).0
    ensures forall i :: 0 <= i < |reqs| && reqs[i].path != CountPath ==> ServeAll(srv, codecs, profile, s, reqs).1[i] == Http(Unimplemented12)
  {
    if |reqs| > 0 {
      var init := reqs[..|reqs| - 1];
      var last := reqs[|reqs| - 1];
      UnknownPathsAreTransparent(srv, codecs, profile, s, init);
      var mid := ServeAll(srv, codecs, profile, s, init).0;
      if last.path == CountPath {
        var r := Routed(init);
        assert Routed(reqs) == r + [last];
        assert (r + [last])[..|r + [last]| - 1] == r;
      } else {
        assert Routed(reqs) == Routed(init);
      }
      forall i | 0 <= i < |reqs| && reqs[i].path != CountPath
        ensures ServeAll(srv, codecs, profile, s, reqs).1[i] == Http(Unimplemented12)
      {
        if i < |init| {
          assert reqs[i] == init[i];
        }
      }
    }
  }

  // ---------------------------------------------------------------------
  // Client
  // ---------------------------------------------------------------------

  /** `CountClient<T>`: the client-side `Grpc`, with or without interceptor. */
  datatype CountClient = CountClient(interceptor: Option<Interceptor>)

  function NewClient(): (c: CountClient)
    ensures c.interceptor.None?
  {
    CountClient(None)
  }

  function ClientWithInterceptor(i: Interceptor): (c: CountClient)
    ensures c.interceptor.Some? && c.interceptor.value == i
  {
    CountClient(Some(i))
  }

  const NotReadyPrefix: string := "Service was not ready: "

  /** A unary call as the client hands it to the transport. */
  datatype UnaryCall = UnaryCall(path: string, codec: string, request: CountRequest)

  /** `CountClient::count`: wait for the channel; if it is not ready the
      call fails with status Unknown; otherwise a unary call on the routed
      path with the client codec. `ready` is the channel's readiness, its
      error being the transport's error text. */
  function ClientCount(c: CountClient, ready: Result<(), string>, request: CountRequest): (r: Result<UnaryCall, Status>)
    ensures ready.Err? ==> r == Err(Status(Unknown, NotReadyPrefix + ready.error))
    ensures ready.Ok? ==> r.Ok? && r.value.request == request && r.value.codec == ServerCodec
    ensures r.Ok? ==> forall srv, md, body :: Call(srv, HttpRequest(r.value.path, md, body)).CountRoute?
  {
    if ready.Err? then Err(Status(Unknown, NotReadyPrefix + ready.error))
    else Ok(UnaryCall("/counter.Count/Count", ClientCodec, request))
  }

  /** The client half of a unary exchange, in the order of the transport
      library's client-side unary call: the interceptor (if any) sees the
      outgoing metadata, then the message is encoded. */
  function Send(c: CountClient, call: UnaryCall, md: Metadata, codecs: CountCodecs): (r: Result<HttpRequest, Status>)
    ensures r.Ok? <==> Admit(c.interceptor, md).Ok? && codecs.request.encode(call.request).Ok?
    ensures r.Ok? ==> r.value.path == call.path
    ensures r.Ok? ==> r.value.metadata == Admit(c.interceptor, md).value
    ensures r.Ok? ==> codecs.request.encode(call.request).Ok? && r.value.body == codecs.request.encode(call.request).value
  {
    var outgoing :- Admit(c.interceptor, md);
    var body :- codecs.request.encode(call.request);
    Ok(HttpRequest(call.path, outgoing, body))
  }

  /** Client and server agree end to end: when the codec round-trips, the
      channel is ready, neither side intercepts and the total stays in range,
      a `count(amount)` call reaches the handler with the same amount and the
      client decodes the new total, which the server now stores. */
  lemma CountCallRoundTrip(c: CountClient, srv: CountServer, codecs: CountCodecs, profile: Profile, s: State, amount: Ints.I32, md: Metadata)
    requires c.interceptor.None? && srv.interceptor.None?
    requires MessageRoundTrips(codecs.request) && MessageRoundTrips(codecs.response)
    requires codecs.request.encode(CountRequest(amount)).Ok?
    requires Ints.InI32(s.total + amount)
    requires codecs.response.encode(CountResponse(s.total + amount)).Ok?
    ensures var call := ClientCount(c, Ok(()), CountRequest(amount)).value;
            var req := Send(c, call, md, codecs).value;
            var out := Handle(srv, codecs, profile, s, req);
            && out.0 == State(s.total + amount)
            && out.1.Message?
            && codecs.response.decode(out.1.body) == Ok(CountResponse(s.total + amount))
  {
    var call := ClientCount(c, Ok(()), CountRequest(amount)).value;
    var req := Send(c, call, md, codecs).value;
    assert codecs.request.decode(req.body) == Ok(CountRequest(amount));
  }

  /** The routed path is `/<package>.<Service>/<Method>` of the descriptor
      the prototype's `generate_code` builds, and `NAME` is its
      `<package>.<Service>` segment. */
  lemma RouteMatchesDescriptor(input: seq<string>)
    ensures var d := ProtoMacro.GenerateCode(input);
            && CountPath == "/" + d.package + "." + d.identifier + "/" + d.methods[0].identifier
            && ServiceName == d.package + "." + d.identifier
            && CountPath == "/" + ServiceName + "/" + d.methods[0].identifier
  {
  }
}

=== FILE: counter.dfy ===
/** The demonstration counter service's handler: one `i32` cell behind a
    lock; each `count` call adds the request's amount to it and answers with
    the new total. The lock only serialises calls and is not modelled: calls
    are applied one after another. */
module Counter {
  import opened Outcomes
  import opened Ints

  datatype CountRequest = CountRequest(amount: I32)
  datatype CountResponse = CountResponse(total: I32)

  /** The handler's state, `State(Mutex<i32>)`. */
  datatype State = State(total: I32)

  /** `+=` on `i32` panics on overflow in a debug build and wraps in a
      release build. */
  datatype Profile = Debug | Release

  /** What one call does: it replies (never with an error status) or, in a
      debug build, panics on overflow. */
  datatype Handled = Replied(next: State, response: CountResponse) | Panicked

  /** The state `run_server` starts the counter service with. */
  function InitialState(): (s: State)
    ensures s.total == 0
  {
    State(0)
  }

  /** `Count::count` for `State`. */
  function Count(profile: Profile, s: State, req: CountRequest): (h: Handled)
    ensures h.Replied? ==> h.response.total == h.next.total
    ensures h.Replied? ==> (h.next.total - (s.total + req.amount)) % 0x1_0000_0000 == 0
    ensures InI32(s.total + req.amount) ==> h.Replied? && h.next.total == s.total + req.amount
    ensures h.Panicked? <==> profile == Debug && !InI32(s.total + req.amount)
  {
    var sum := s.total + req.amount;
    if InI32(sum) then Replied(State(sum), CountResponse(sum))
    else match profile
      case Debug => Panicked
      case Release => Replied(State(Wrap(sum)), CountResponse(Wrap(sum)))
  }

  /** The sum of a sequence of amounts (as mathematical integers). */
  function Sum(amounts: seq<I32>): int {
    if |amounts| == 0 then 0 else Sum(amounts[..|amounts| - 1]) + amounts[|amounts| - 1]
  }

  /** No running total of `start` plus a prefix of `amounts` leaves `i32`. */
  predicate NoOverflow(start: I32, amounts: seq<I32>) {
    forall k :: 0 < k <= |amounts| ==> InI32(start + Sum(amounts[..k]))
  }

  /** The effect of a sequence of calls, in order: the final state and every
      response's total, or `None` if a call panicked. */
  function Replay(profile: Profile, s: State, amounts: seq<I32>): (r: Option<(State, seq<I32>)>)
    ensures r.Some? ==> |r.value.1| == |amounts|
  {
    if |amounts| == 0 then Some((s, []))
    else
      match Replay(profile, s, amounts[..|amounts| - 1])
      case None => None
      case Some((mid, totals)) =>
        match Count(profile, mid, CountRequest(amounts[|amounts| - 1]))
        case Panicked => None
        case Replied(next, resp) => Some((next, totals + [resp.total]))
  }

  /** Without overflow, in either build, the k-th call answers with the
      starting total plus the first k amounts, and the state ends at the
      starting total plus all of them. */
  lemma {:induction false} ReplaySums(profile: Profile, s: State, amounts: seq<I32>)
    requires NoOverflow(s.total, amounts)
    ensures Replay(profile, s, amounts).Some?
    ensures Replay(profile, s, amounts).value.0.total == s.total + Sum(amounts)
    ensures forall k :: 0 <= k < |amounts| ==> Replay(profile, s, amounts).value.1[k] == s.total + Sum(amounts[..k + 1])
  {
    if |amounts| > 0 {
      var n := |amounts| - 1;
      var init := amounts[..n];
      assert amounts[..|amounts|] == amounts;
      forall k | 0 < k <= |init|
        ensures InI32(s.total + Sum(init[..k]))
      {
        assert init[..k] == amounts[..k];
      }
      ReplaySums(profile, s, init);
      var r := Replay(profile, s, init).value;
      assert InI32(s.total + Sum(amounts[..n + 1]));
      forall k | 0 <= k < n
        ensures Replay(profile, s, amounts).value.1[k] == s.total + Sum(amounts[..k + 1])
      {
        assert init[..k + 1] == amounts[..k + 1];
      }
    }
  }

  /** From the server's initial state, after any calls whose running totals
      stay in range, the last response reports the sum of all amounts. */
  lemma LastTotalIsSumFromStart(profile: Profile, amounts: seq<I32>)
    requires |amounts| > 0
    requires NoOverflow(0, amounts)
    ensures Replay(profile, InitialState(), amounts).Some?
    ensures Replay(profile, InitialState(), amounts).value.1[|amounts| - 1] == Sum(amounts)
  {
    ReplaySums(profile, InitialState(), amounts);
    assert amounts[..|amounts|] == amounts;
  }

  /** In a release build an overflowing call still replies, with the total
      wrapped around: `i32::MAX` plus one answers `i32::MIN`. */
  lemma ReleaseWrapsAround()
    ensures Count(Release, State(I32Max), CountRequest(1)) == Replied(State(I32Min), CountResponse(I32Min))
    ensures Count(Debug, State(I32Max), CountRequest(1)) == Panicked
  {
  }
}

=== FILE: gen_errors.dfy ===
/** The reasons a binding compiler aborts generation. Each constructor stands
    for one `panic!` of the macros; `Message` gives the text it panics with. */
module GenErrors {
  import opened Syntax

  datatype GenError =
    | UnsupportedAttribute(attr: Attribute)
    | SelfArgument(receiver: string)
    | NoCodec
    | UnrecognizedCodec(selector: string)
    | InvalidArgumentType

  const SelfArgumentPrefix: string := "Invalid RPC argument. 'self' arguments are not allowed: "
  const UnrecognizedCodecPrefix: string := "Unrecognized tonic_rpc codec "

  /** The panic message. `debug` is the `{:?}` rendering of an attribute,
      which belongs to the syntax library and is taken as given. */
  function Message(e: GenError, debug: Attribute -> string): (msg: string)
    ensures e.UnsupportedAttribute? ==> msg == "Attribute " + debug(e.attr) + " is not supported on tonic-rpc methods"
    ensures e.SelfArgument? ==> msg == SelfArgumentPrefix + e.receiver
    ensures e.NoCodec? ==> msg == "No tonic_rpc codec given"
    ensures e.UnrecognizedCodec? ==> msg == UnrecognizedCodecPrefix + e.selector
    ensures e.InvalidArgumentType? ==> msg == "Invalid rpc argument type"
  {
    match e
    case UnsupportedAttribute(a) => "Attribute " + debug(a) + " is not supported on tonic-rpc methods"
    case SelfArgument(r) => SelfArgumentPrefix + r
    case NoCodec => "No tonic_rpc codec given"
    case UnrecognizedCodec(s) => UnrecognizedCodecPrefix + s
    case InvalidArgumentType => "Invalid rpc argument type"
  }

  /** The message of a rejected codec selector names the selector: it can be
      read back from the message. */
  lemma UnrecognizedCodecMessageNamesSelector(s: string, t: string, debug: Attribute -> string)
    requires Message(UnrecognizedCodec(s), debug) == Message(UnrecognizedCodec(t), debug)
    ensures s == t
  {
    var p := UnrecognizedCodecPrefix;
    assert s == (p + s)[|p|..];
    assert t == (p + t)[|p|..];
  }
}

=== FILE: ints.dfy ===
/** Rust's `i32`: values, and the two's-complement wrap-around of an
    out-of-range sum. */
module Ints {

  const I32Min: int := -0x8000_0000
  const I32Max: int := 0x7fff_ffff

  predicate InI32(x: int) {
    I32Min <= x <= I32Max
  }

  type I32 = x: int | InI32(x)

  /** Two's-complement truncation of an integer to 32 bits. */
  function Wrap(x: int): (r: I32)
    ensures (r - x) % 0x1_0000_0000 == 0
    ensures InI32(x) ==> r == x
  {
    (x - I32Min) % 0x1_0000_0000 + I32Min
  }
}

=== FILE: outcomes.dfy ===
/** Failure-compatible wrappers used throughout the model: `Option` for values
    that may be absent and `Result` for computations that either produce a
    value or stop with an error (a `panic!` at generation time, a `Status` at
    call time). Both work with Dafny's `:-` operator. */
module Outcomes {

  datatype Option<+T> = None | Some(value: T)

  datatype Result<+T, +E> = Ok(value: T) | Err(error: E) {

    predicate IsFailure() {
      Err?
    }

    function PropagateFailure<U>(): Result<U, E>
      requires Err?
    {
      Err(error)
    }

    function Extract(): T
      requires Ok?
    {
      value
    }
  }

  /** `xs[i]` is the first element on which `f` fails. */
  predicate FirstFailure<X, D, E>(xs: seq<X>, f: X -> Result<D, E>, i: int) {
    && 0 <= i < |xs|
    && f(xs[i]).Err?
    && forall j :: 0 <= j < i ==> f(xs[j]).Ok?
  }

  /** `f` applied to every element in order and collected: the values if all
      succeed, otherwise the error of the first failure (Rust's
      `iter().map(f).collect::<Result<Vec<_>, _>>()`, or a `map` whose `f`
      panics). */
  function CollectAll<X, D, E>(xs: seq<X>, f: X -> Result<D, E>): (r: Result<seq<D>, E>)
    ensures r.Ok? ==> forall i :: 0 <= i < |xs| ==> f(xs[i]).Ok?
    ensures (forall i :: 0 <= i < |xs| ==> f(xs[i]).Ok?) ==> r.Ok?
    ensures r.Ok? ==> |r.value| == |xs| && forall i :: 0 <= i < |xs| ==> r.value[i] == f(xs[i]).value
    ensures r.Err? ==> exists i :: FirstFailure(xs, f, i) && r.error == f(xs[i]).error
  {
    if |xs| == 0 then Ok([])
    else
      var d := f(xs[0]);
      var rest := CollectAll(xs[1..], f);
      if d.Err? then
        assert FirstFailure(xs, f, 0);
        Err(d.error)
      else if rest.Err? then
        ghost var k :| FirstFailure(xs[1..], f, k) && rest.error == f(xs[1..][k]).error;
        assert FirstFailure(xs, f, k + 1);
        Err(rest.error)
      else
        Ok([d.value] + rest.value)
  }
}

=== FILE: proto_macro.dfy ===
/** The earlier prototype of the binding compiler (`generate_macro`). It
    accepts only methods with exactly one typed parameter and no trailing
    comma, ignores attributes, never streams, keeps the method name as its
    identifier, and binds every service to one fixed JSON codec. Its
    `generate_code` ignores its input and emits the counter service. */
module ProtoMacro {
  import opened Outcomes
  import opened Syntax
  import opened GenErrors
  import RpcMacro

  /** `MyMethod::CODEC_PATH` and `MyService::CODEC_PATH`. */
  const MethodCodecPath: string := "tonic_trivial::json_codec::MyCodec"
  const ServiceCodecPath: string := "tonic_trivial::json_codec::MyCodec"

  /** `MyMethod`: request and response are token streams; a missing return
      type is the string literal `"()"`. */
  datatype MyMethod = MyMethod(
    name: string,
    identifier: string,
    clientStreaming: bool,
    serverStreaming: bool,
    request: Tokens,
    response: Tokens)
  {
    /** The comment list is always empty. */
    function Comment(): (c: seq<string>)
      ensures |c| == 0
    {
      []
    }

    /** `request_response_name`: the request and response tokens as they are. */
    function RequestResponseName(): (names: (Tokens, Tokens))
      ensures names == (request, response)
    {
      (request, response)
    }
  }

  /** `MyService`. Its comment list is always empty. */
  datatype MyService = MyService(name: string, package: string, identifier: string, methods: seq<MyMethod>)
  {
    function Comment(): (c: seq<string>)
      ensures |c| == 0
    {
      []
    }
  }

  /** `make_method` of the prototype. Attributes are not looked at. */
  function MakeMethod(m: TraitItemMethod): (r: Result<MyMethod, GenError>)
    ensures r.Ok? <==> m.sig.inputs.punctuated == [] && m.sig.inputs.last.Some? && m.sig.inputs.last.value.Typed?
    ensures r.Err? ==> r.error == InvalidArgumentType
    ensures r.Ok? ==> && r.value.name == m.sig.ident
                      && r.value.identifier == m.sig.ident
                      && !r.value.clientStreaming && !r.value.serverStreaming
                      && r.value.request == TypeTokens(m.sig.inputs.last.value.ty)
                      && r.value.response == (if m.sig.output.Default? then StrLit("()") else TypeTokens(m.sig.output.ty))
  {
    var name := m.sig.ident;
    var args := IntoPairs(m.sig.inputs);
    if |args| != 1 then Err(InvalidArgumentType)
    else
      var request :- match args[0]
        case End(Typed(_, ty)) => Ok(TypeTokens(ty))
        case _ => Err(InvalidArgumentType);
      var response := match m.sig.output
        case Default => StrLit("()")
        case Type(ty) => TypeTokens(ty);
      Ok(MyMethod(name, name, false, false, request, response))
  }

  /** `make` (which is `make_method`) for every method item, in order;
      other items are dropped and the first failure aborts. */
  function MakeMethods(items: seq<TraitItem>, make: TraitItemMethod -> Result<MyMethod, GenError>): (r: Result<seq<MyMethod>, GenError>)
    ensures r.Ok? ==> forall i :: 0 <= i < |MethodItems(items)| ==> make(MethodItems(items)[i]).Ok?
    ensures (forall i :: 0 <= i < |MethodItems(items)| ==> make(MethodItems(items)[i]).Ok?) ==> r.Ok?
    ensures r.Ok? ==> && |r.value| == |MethodItems(items)|
                      && forall i :: 0 <= i < |r.value| ==> r.value[i] == make(MethodItems(items)[i]).value
    ensures r.Err? ==> exists i :: FirstFailure(MethodItems(items), make, i) && r.error == make(MethodItems(items)[i]).error
  {
    CollectAll(MethodItems(items), make)
  }

  /** `#[tonic_rpc(...)]` of the prototype: the attribute argument is
      ignored; package, name and identifier are all the trait's name. */
  function TonicRpc(attribute: string, item: ItemTrait): (r: Result<MyService, GenError>)
    ensures r.Ok? <==> MakeMethods(item.items, MakeMethod).Ok?
    ensures r.Ok? ==> r.value.methods == MakeMethods(item.items, MakeMethod).value
    ensures r.Err? ==> r.error == InvalidArgumentType
    ensures r.Ok? ==> && r.value.package == item.ident
                      && r.value.name == item.ident
                      && r.value.identifier == item.ident
                      && |r.value.methods| == |MethodItems(item.items)|
                      && forall i :: 0 <= i < |r.value.methods| ==> r.value.methods[i].identifier == MethodItems(item.items)[i].sig.ident
  {
    var methods :- MakeMethods(item.items, MakeMethod);
    Ok(MyService(item.ident, item.ident, item.ident, methods))
  }

  /** The selector has no effect on the prototype's outcome. */
  lemma AttributeIgnored(a: string, b: string, item: ItemTrait)
    ensures TonicRpc(a, item) == TonicRpc(b, item)
  {
  }

  /** `generate_code`: whatever its input, the counter service `Count` in
      package `counter` with the single unary method `count`. */
  function GenerateCode(input: seq<string>): (s: MyService)
    ensures s.package == "counter" && s.name == "Count" && s.identifier == "Count"
    ensures |s.methods| == 1
    ensures s.methods[0].name == "count" && s.methods[0].identifier == "Count"
    ensures !s.methods[0].clientStreaming && !s.methods[0].serverStreaming
    ensures s.methods[0].RequestResponseName() == (TypeTokens(Path(["super", "CountRequest"])), TypeTokens(Path(["super", "CountResponse"])))
  {
    var count := MyMethod("count", "Count", false, false,
      TypeTokens(Path(["super", "CountRequest"])), TypeTokens(Path(["super", "CountResponse"])));
    MyService("Count", "counter", "Count", [count])
  }

  // ---------------------------------------------------------------------
  // The two shape rules compared
  // ---------------------------------------------------------------------

  /** Whatever the prototype accepts, the current compiler accepts too when
      the method's attributes are ones it supports; both derive the same
      request type, and the same response type when one is declared. With
      no declared return type they differ: the prototype answers with the
      string literal `"()"`, the current compiler with the unit type. */
  lemma CurrentRuleExtendsPrototype(m: TraitItemMethod, traitName: string, camel: string -> string)
    requires MakeMethod(m).Ok?
    requires RpcMacro.AllSupported(m.attrs)
    ensures RpcMacro.MakeMethod(m, traitName, camel).Ok?
    ensures TypeTokens(RpcMacro.MakeMethod(m, traitName, camel).value.request) == MakeMethod(m).value.request
    ensures m.sig.output.Type? ==> TypeTokens(RpcMacro.MakeMethod(m, traitName, camel).value.response) == MakeMethod(m).value.response
    ensures m.sig.output.Default? ==> && RpcMacro.MakeMethod(m, traitName, camel).value.response == Unit
                                      && MakeMethod(m).value.response == StrLit("()")
  {
    assert Params(m.sig.inputs) == [m.sig.inputs.last.value];
  }

  /** The prototype is strictly stricter: a method without parameters, and a
      single parameter followed by a trailing comma, are rejected by it and
      accepted by the current compiler. */
  lemma PrototypeRejectsWhatCurrentAccepts(ty: Ty, camel: string -> string)
    ensures var noArgs := TraitItemMethod([], Signature("heartbeat", Inputs([], None), Default));
            && MakeMethod(noArgs) == Err(InvalidArgumentType)
            && RpcMacro.MakeMethod(noArgs, "Units", camel).Ok?
            && RpcMacro.MakeMethod(noArgs, "Units", camel).value.request == Unit
    ensures var trailing := TraitItemMethod([], Signature("send", Inputs([Typed("arg", ty)], None), Default));
            && MakeMethod(trailing) == Err(InvalidArgumentType)
            && RpcMacro.MakeMethod(trailing, "Units", camel).Ok?
            && RpcMacro.MakeMethod(trailing, "Units", camel).value.request == ty
  {
    var trailing := TraitItemMethod([], Signature("send", Inputs([Typed("arg", ty)], None), Default));
    assert Params(trailing.sig.inputs) == [Typed("arg", ty)];
  }
}

=== FILE: rpc_macro.dfy ===
/** The trait-to-RPC binding compiler of the `#[tonic_rpc(<codec>)]`
    attribute macro. It validates a trait, derives one method descriptor per
    method item, wraps them in a service descriptor bound to the selected
    codec, and declares one request and one response type alias per method.
    Case conversion of identifiers is an external function taken as the
    parameter `camel`. */
module RpcMacro {
  import opened Outcomes
  import opened Syntax
  import opened GenErrors
  import Codec

  // ---------------------------------------------------------------------
  // Method attributes
  // ---------------------------------------------------------------------

  /** What `parse_attributes` extracts, in its order (server, client, docs). */
  datatype MethodAttributes = MethodAttributes(serverStreaming: bool, clientStreaming: bool, docComments: seq<string>)

  predicate IsServerStreaming(a: Attribute) {
    IsIdent(a.path, "server_streaming")
  }

  predicate IsClientStreaming(a: Attribute) {
    IsIdent(a.path, "client_streaming")
  }

  predicate IsDoc(a: Attribute) {
    IsIdent(a.path, "doc")
  }

  /** The only attributes a method may carry. */
  predicate Supported(a: Attribute) {
    IsServerStreaming(a) || IsClientStreaming(a) || IsDoc(a)
  }

  /** Every attribute of the list is supported. */
  predicate AllSupported(attrs: seq<Attribute>) {
    forall i :: 0 <= i < |attrs| ==> Supported(attrs[i])
  }

  /** Some attribute of the list is `server_streaming`. */
  predicate RequestsServerStreaming(attrs: seq<Attribute>) {
    exists i :: 0 <= i < |attrs| && IsServerStreaming(attrs[i])
  }

  /** Some attribute of the list is `client_streaming`. */
  predicate RequestsClientStreaming(attrs: seq<Attribute>) {
    exists i :: 0 <= i < |attrs| && IsClientStreaming(attrs[i])
  }

  /** `attrs[i]` is the first attribute that is not supported. */
  predicate FirstUnsupported(attrs: seq<Attribute>, i: int) {
    && 0 <= i < |attrs|
    && !Supported(attrs[i])
    && forall j :: 0 <= j < i ==> Supported(attrs[j])
  }

  const DocPrefix: string := "= \""

  /** The text of a doc comment from the tokens of `#[doc = "..."]`: strip
      the leading `= "`, then the trailing `"`; either failing gives `None`. */
  function StripDoc(tokens: string): (r: Option<string>)
    ensures r.Some? <==> |tokens| >= 4 && tokens[..3] == DocPrefix && tokens[|tokens| - 1] == '"'
    ensures r.Some? ==> tokens == DocPrefix + r.value + "\""
  {
    if |tokens| >= 3 && tokens[..3] == DocPrefix then
      var rest := tokens[3..];
      if |rest| >= 1 && rest[|rest| - 1] == '"' then Some(rest[..|rest| - 1]) else None
    else None
  }

  /** Every comment text is recovered from the tokens it is written as. */
  lemma StripDocRecoversComment(c: string)
    ensures StripDoc(DocPrefix + c + "\"") == Some(c)
  {
    var t := DocPrefix + c + "\"";
    assert t[..3] == DocPrefix;
    assert t[3..][..|t| - 4] == c;
  }

  /** The comment one attribute contributes: none unless it is a well-formed
      doc attribute. */
  function DocOf(a: Attribute): seq<string> {
    if IsDoc(a) && StripDoc(a.tokens).Some? then [StripDoc(a.tokens).value] else []
  }

  /** The doc comments of an attribute list, in order (reference definition,
      recursing from the front). */
  function DocComments(attrs: seq<Attribute>): seq<string> {
    if |attrs| == 0 then [] else DocOf(attrs[0]) + DocComments(attrs[1..])
  }

  lemma {:induction false} DocCommentsSnoc(attrs: seq<Attribute>, a: Attribute)
    ensures DocComments(attrs + [a]) == DocComments(attrs) + DocOf(a)
  {
    if |attrs| == 0 {
      assert attrs + [a] == [a];
    } else {
      assert (attrs + [a])[1..] == attrs[1..] + [a];
      DocCommentsSnoc(attrs[1..], a);
    }
  }

  /** `parse_attributes`: one pass over the attributes in order (here: the
      first attribute, then the rest); the first unsupported attribute aborts
      generation. Streaming flags are set by
      any occurrence of their attribute; doc comments are kept in order. */
  function ParseAttributes(attrs: seq<Attribute>): (r: Result<MethodAttributes, GenError>)
    ensures r.Ok? <==> AllSupported(attrs)
    ensures r.Err? ==> exists i :: FirstUnsupported(attrs, i) && r.error == UnsupportedAttribute(attrs[i])
    ensures r.Ok? ==> (r.value.serverStreaming <==> RequestsServerStreaming(attrs))
    ensures r.Ok? ==> (r.value.clientStreaming <==> RequestsClientStreaming(attrs))
    ensures r.Ok? ==> r.value.docComments == DocComments(attrs)
  {
    if |attrs| == 0 then Ok(MethodAttributes(false, false, []))
    else
      var a := attrs[0];
      if !Supported(a) then
        assert FirstUnsupported(attrs, 0);
        Err(UnsupportedAttribute(a))
      else
        match ParseAttributes(attrs[1..])
        case Err(e) =>
          ghost var k :| FirstUnsupported(attrs[1..], k) && e == UnsupportedAttribute(attrs[1..][k]);
          assert FirstUnsupported(attrs, k + 1);
          Err(e)
        case Ok(rest) =>
          Ok(MethodAttributes(
            IsServerStreaming(a) || rest.serverStreaming,
            IsClientStreaming(a) || rest.clientStreaming,
            DocOf(a) + rest.docComments))
  }

  /** Repeating or reordering attributes does not change the streaming flags. */
  lemma FlagsIgnoreOrderAndRepeats(a: seq<Attribute>, b: seq<Attribute>)
    requires ParseAttributes(a).Ok?
    requires forall x :: x in a <==> x in b
    ensures ParseAttributes(b).Ok?
    ensures ParseAttributes(b).value.serverStreaming == ParseAttributes(a).value.serverStreaming
    ensures ParseAttributes(b).value.clientStreaming == ParseAttributes(a).value.clientStreaming
  {
    assert forall i :: 0 <= i < |b| ==> b[i] in a;
    assert forall i :: 0 <= i < |a| ==> a[i] in b;
  }

  // ---------------------------------------------------------------------
  // Method arguments and shapes
  // ---------------------------------------------------------------------

  /** `extract_arg`: the type of a typed parameter, whatever its punctuation;
      a `self` receiver aborts generation. */
  function ExtractArg(pair: Pair): (r: Result<Ty, GenError>)
    ensures r.Ok? <==> pair.value.Typed?
    ensures r.Ok? ==> r.value == pair.value.ty
    ensures r.Err? ==> r.error == SelfArgument(pair.value.tokens)
  {
    match pair
    case Punctuated(Typed(_, ty)) => Ok(ty)
    case End(Typed(_, ty)) => Ok(ty)
    case Punctuated(Receiver(rec)) => Err(SelfArgument(rec))
    case End(Receiver(rec)) => Err(SelfArgument(rec))
  }

  /** `extract_arg` mapped over the parameter pairs and collected: the
      first receiver, in declaration order, aborts. */
  function ExtractArgs(pairs: seq<Pair>): (r: Result<seq<Ty>, GenError>)
    ensures r.Ok? <==> forall i :: 0 <= i < |pairs| ==> pairs[i].value.Typed?
    ensures r.Ok? ==> |r.value| == |pairs| && forall i :: 0 <= i < |pairs| ==> r.value[i] == pairs[i].value.ty
    ensures r.Err? ==> exists i :: && 0 <= i < |pairs| && pairs[i].value.Receiver?
                                   && (forall j :: 0 <= j < i ==> pairs[j].value.Typed?)
                                   && r.error == SelfArgument(pairs[i].value.tokens)
  {
    if |pairs| == 0 then Ok([])
    else
      var t :- ExtractArg(pairs[0]);
      var rest :- ExtractArgs(pairs[1..]);
      Ok([t] + rest)
  }

  /** The request type from the parameter types: one parameter is used as
      it is; any other number is parenthesised into a tuple. */
  function RequestType(tys: seq<Ty>): Ty {
    if |tys| == 1 then tys[0] else Tuple(tys)
  }

  /** The response type: `()` when no return type is declared. */
  function ResponseType(output: ReturnType): Ty {
    match output
    case Default => Unit
    case Type(ty) => ty
  }

  /** The identifier `__tonic_generated_<Trait>_<method>_<suffix>`. */
  function GeneratedName(traitName: string, name: string, suffix: string): string {
    "__tonic_generated_" + traitName + "_" + name + "_" + suffix
  }

  /** `RustDefMethod`: a method descriptor. */
  datatype RustDefMethod = RustDefMethod(
    name: string,
    identifier: string,
    clientStreaming: bool,
    serverStreaming: bool,
    request: Ty,
    response: Ty,
    generatedRequest: string,
    generatedResponse: string,
    docComments: seq<string>)

  /** `make_method`: attributes are parsed before arguments, so a method with
      both an unsupported attribute and a receiver fails on the attribute. */
  function MakeMethod(m: TraitItemMethod, traitName: string, camel: string -> string): (r: Result<RustDefMethod, GenError>)
    ensures r.Ok? <==> && AllSupported(m.attrs)
                       && (forall i :: 0 <= i < |Params(m.sig.inputs)| ==> Params(m.sig.inputs)[i].Typed?)
    ensures !AllSupported(m.attrs) ==> r.Err? && exists i :: FirstUnsupported(m.attrs, i) && r.error == UnsupportedAttribute(m.attrs[i])
    ensures AllSupported(m.attrs) && r.Err? ==> r.error.SelfArgument?
    ensures r.Err? && r.error.SelfArgument? ==> exists i :: 0 <= i < |Params(m.sig.inputs)| && Params(m.sig.inputs)[i] == Receiver(r.error.receiver)
    ensures r.Ok? ==> && r.value.name == m.sig.ident
                      && r.value.identifier == camel(m.sig.ident)
                      && r.value.generatedRequest == GeneratedName(traitName, m.sig.ident, "request")
                      && r.value.generatedResponse == GeneratedName(traitName, m.sig.ident, "response")
                      && r.value.response == (if m.sig.output.Default? then Unit else m.sig.output.ty)
    ensures r.Ok? ==> var ps := Params(m.sig.inputs);
                      if |ps| == 1 then r.value.request == ps[0].ty
                      else r.value.request.Tuple? && |r.value.request.elems| == |ps|
                           && forall i :: 0 <= i < |ps| ==> r.value.request.elems[i] == ps[i].ty
    ensures r.Ok? ==> && (r.value.serverStreaming <==> RequestsServerStreaming(m.attrs))
                      && (r.value.clientStreaming <==> RequestsClientStreaming(m.attrs))
                      && r.value.docComments == DocComments(m.attrs)
  {
    var name := m.sig.ident;
    var attrs :- ParseAttributes(m.attrs);
    var args :- ExtractArgs(IntoPairs(m.sig.inputs));
    Ok(RustDefMethod(
      name, camel(name), attrs.clientStreaming, attrs.serverStreaming,
      RequestType(args), ResponseType(m.sig.output),
      GeneratedName(traitName, name, "request"), GeneratedName(traitName, name, "response"),
      attrs.docComments))
  }

  /** `request_response_name`: the two aliases, qualified with `super::`. */
  function RequestResponseName(m: RustDefMethod): (names: (Ty, Ty))
    ensures names.0 == Path(["super", m.generatedRequest])
    ensures names.1 == Path(["super", m.generatedResponse])
  {
    (Path(["super", m.generatedRequest]), Path(["super", m.generatedResponse]))
  }

  // ---------------------------------------------------------------------
  // Codec-bound descriptors
  // ---------------------------------------------------------------------

  /** `Method::CODEC_PATH` of `JsonMethod`, `BincodeMethod`, `CborMethod`,
      `MessagePackMethod`. */
  function MethodCodecPath(s: Codec.Strategy): (p: string)
    ensures p == Codec.AliasPath(s)
  {
    match s
    case Json => "::tonic_rpc::codec::JsonCodec"
    case Bincode => "::tonic_rpc::codec::BincodeCodec"
    case Cbor => "::tonic_rpc::codec::CborCodec"
    case MessagePack => "::tonic_rpc::codec::MessagePackCodec"
  }

  /** `Service::CODEC_PATH` of `RustDefService<M>` for the four method types. */
  function ServiceCodecPath(s: Codec.Strategy): (p: string)
    ensures p == MethodCodecPath(s)
    ensures Codec.StrategyOfAlias(p) == Some(s)
  {
    Codec.AliasPathsDistinct(s);
    match s
    case Json => "::tonic_rpc::codec::JsonCodec"
    case Bincode => "::tonic_rpc::codec::BincodeCodec"
    case Cbor => "::tonic_rpc::codec::CborCodec"
    case MessagePack => "::tonic_rpc::codec::MessagePackCodec"
  }

  /** A method descriptor wrapped in the codec-specific method type. */
  datatype CodecMethod = CodecMethod(codec: Codec.Strategy, def: RustDefMethod)

  /** `RustDefService<M>`: the service descriptor. Its comment list is empty. */
  datatype RustDefService = RustDefService(
    codec: Codec.Strategy,
    name: string,
    package: string,
    identifier: string,
    methods: seq<CodecMethod>)
  {
    function Comment(): (c: seq<string>)
      ensures |c| == 0
    {
      []
    }
  }

  /** `type <name> = <ty>;` */
  datatype TypeAlias = TypeAlias(name: string, ty: Ty)

  /** The generated code, apart from what the client and server generators
      of the transport library derive from the service descriptor. */
  datatype Expansion = Expansion(service: RustDefService, aliases: seq<TypeAlias>)

  /** The request and response aliases of each method, in method order. */
  function TypeAliases(methods: seq<CodecMethod>): (r: seq<TypeAlias>)
    ensures |r| == 2 * |methods|
    ensures forall i :: 0 <= i < |methods| ==>
              && r[2 * i] == TypeAlias(methods[i].def.generatedRequest, methods[i].def.request)
              && r[2 * i + 1] == TypeAlias(methods[i].def.generatedResponse, methods[i].def.response)
  {
    if |methods| == 0 then []
    else
      var d := methods[0].def;
      [TypeAlias(d.generatedRequest, d.request), TypeAlias(d.generatedResponse, d.response)]
      + TypeAliases(methods[1..])
  }

  /** `make_method` for the methods of one trait. */
  function MakeFor(traitName: string, camel: string -> string): TraitItemMethod -> Result<RustDefMethod, GenError> {
    m => MakeMethod(m, traitName, camel)
  }

  /** The method items of a trait turned into codec-bound descriptors by
      `make` (which is `make_method` for that trait), in order; other items
      are dropped and the first method that fails aborts. */
  function MakeMethods(codec: Codec.Strategy, items: seq<TraitItem>, make: TraitItemMethod -> Result<RustDefMethod, GenError>): (r: Result<seq<CodecMethod>, GenError>)
    ensures r.Ok? ==> forall i :: 0 <= i < |MethodItems(items)| ==> make(MethodItems(items)[i]).Ok?
    ensures (forall i :: 0 <= i < |MethodItems(items)| ==> make(MethodItems(items)[i]).Ok?) ==> r.Ok?
    ensures r.Ok? ==> && |r.value| == |MethodItems(items)|
                      && forall i :: 0 <= i < |r.value| ==> r.value[i] == CodecMethod(codec, make(MethodItems(items)[i]).value)
    ensures r.Err? ==> exists i :: FirstFailure(MethodItems(items), make, i) && r.error == make(MethodItems(items)[i]).error
  {
    var ds :- CollectAll(MethodItems(items), make);
    Ok(seq(|ds|, i requires 0 <= i < |ds| => CodecMethod(codec, ds[i])))
  }

  /** `make_rpc`: a service in the empty package, named and identified by
      the trait, plus the type aliases of its methods. */
  function MakeRpc(codec: Codec.Strategy, item: ItemTrait, camel: string -> string): (r: Result<Expansion, GenError>)
    ensures r.Ok? <==> MakeMethods(codec, item.items, MakeFor(item.ident, camel)).Ok?
    ensures r.Err? ==> r.error == MakeMethods(codec, item.items, MakeFor(item.ident, camel)).error
    ensures r.Ok? ==> var s := r.value.service;
                      && s.codec == codec
                      && s.package == ""
                      && s.name == item.ident
                      && s.identifier == item.ident
                      && |s.methods| == |MethodItems(item.items)|
                      && (forall i :: 0 <= i < |s.methods| ==> s.methods[i].codec == codec)
                      && (forall i :: 0 <= i < |s.methods| ==> s.methods[i].def == MakeFor(item.ident, camel)(MethodItems(item.items)[i]).value)
                      && r.value.aliases == TypeAliases(s.methods)
  {
    var methods :- MakeMethods(codec, item.items, MakeFor(item.ident, camel));
    var service := RustDefService(codec, item.ident, "", item.ident, methods);
    Ok(Expansion(service, TypeAliases(methods)))
  }

  // ---------------------------------------------------------------------
  // Codec selection
  // ---------------------------------------------------------------------

  /** The selector word that picks a strategy. */
  function SelectorName(s: Codec.Strategy): string {
    match s
    case Json => "json"
    case Bincode => "bincode"
    case Cbor => "cbor"
    case MessagePack => "messagepack"
  }

  /** The dispatch of `tonic_rpc` on its attribute text. */
  function SelectCodec(selector: string): (r: Result<Codec.Strategy, GenError>)
    ensures r.Ok? <==> selector in {"json", "bincode", "cbor", "messagepack"}
    ensures r.Ok? ==> SelectorName(r.value) == selector
    ensures selector == "" ==> r == Err(NoCodec)
    ensures r.Err? && selector != "" ==> r == Err(UnrecognizedCodec(selector))
  {
    match selector
    case "json" => Ok(Codec.Json)
    case "bincode" => Ok(Codec.Bincode)
    case "cbor" => Ok(Codec.Cbor)
    case "messagepack" => Ok(Codec.MessagePack)
    case "" => Err(NoCodec)
    case other => Err(UnrecognizedCodec(other))
  }

  /** Every strategy has exactly one selector word. */
  lemma SelectorRoundTrip(s: Codec.Strategy)
    ensures SelectCodec(SelectorName(s)) == Ok(s)
  {
  }

  /** `#[tonic_rpc(<selector>)] trait ...`: the selector is checked before
      the trait is looked at; the service and all of its methods then share
      the selected codec path, which names one of the codec aliases. */
  function TonicRpc(selector: string, item: ItemTrait, camel: string -> string): (r: Result<Expansion, GenError>)
    ensures SelectCodec(selector).Err? ==> r == Err(SelectCodec(selector).error)
    ensures SelectCodec(selector).Ok? ==> r == MakeRpc(SelectCodec(selector).value, item, camel)
    ensures r.Ok? ==> && SelectCodec(selector).Ok?
                      && r.value.service.codec == SelectCodec(selector).value
                      && Codec.StrategyOfAlias(ServiceCodecPath(r.value.service.codec)) == Some(r.value.service.codec)
                      && forall i :: 0 <= i < |r.value.service.methods| ==>
                           MethodCodecPath(r.value.service.methods[i].codec) == ServiceCodecPath(r.value.service.codec)
  {
    var codec :- SelectCodec(selector);
    MakeRpc(codec, item, camel)
  }

  // ---------------------------------------------------------------------
  // Properties of the derived shapes
  // ---------------------------------------------------------------------

  /** The conditions under which `make_method` accepts a method: every
      attribute is supported and no parameter is a receiver. */
  predicate Compilable(m: TraitItemMethod) {
    && AllSupported(m.attrs)
    && forall i :: 0 <= i < |Params(m.sig.inputs)| ==> Params(m.sig.inputs)[i].Typed?
  }

  /** The request rule, for every method the compiler accepts: no
      parameters give `()`; one parameter gives its own type, even a tuple
      type, which is not wrapped again; two or more give the tuple of their
      types in declaration order. */
  lemma RequestShapeRule(m: TraitItemMethod, traitName: string, camel: string -> string)
    requires AllSupported(m.attrs)
    requires forall i :: 0 <= i < |Params(m.sig.inputs)| ==> Params(m.sig.inputs)[i].Typed?
    ensures MakeMethod(m, traitName, camel).Ok?
    ensures var ps := Params(m.sig.inputs);
            var req := MakeMethod(m, traitName, camel).value.request;
            && (|ps| == 0 ==> req == Unit)
            && (|ps| == 1 ==> req == ps[0].ty && req != Tuple([ps[0].ty]))
            && (|ps| >= 2 ==> req == Tuple(seq(|ps|, i requires 0 <= i < |ps| => ps[i].ty)))
  {
    var ps := Params(m.sig.inputs);
    var req := MakeMethod(m, traitName, camel).value.request;
    if |ps| == 1 {
      assert req < Tuple([req]);
    } else if |ps| >= 2 {
      assert req.elems == seq(|ps|, i requires 0 <= i < |ps| => ps[i].ty);
    } else {
      assert req.elems == [];
    }
  }

  /** The outcome depends on the parameters only through their sequence:
      names aside, a trailing comma or its absence makes no difference. */
  lemma OnlyParameterSequenceMatters(m1: TraitItemMethod, m2: TraitItemMethod, traitName: string, camel: string -> string)
    requires m1.attrs == m2.attrs && m1.sig.ident == m2.sig.ident && m1.sig.output == m2.sig.output
    requires Params(m1.sig.inputs) == Params(m2.sig.inputs)
    ensures MakeMethod(m1, traitName, camel) == MakeMethod(m2, traitName, camel)
  {
    var p1 := IntoPairs(m1.sig.inputs);
    var p2 := IntoPairs(m2.sig.inputs);
    var e1 := ExtractArgs(p1);
    var e2 := ExtractArgs(p2);
    assert e1.Ok? == e2.Ok?;
    if e1.Ok? {
      assert e1.value == e2.value;
    } else {
      var i1 :| && 0 <= i1 < |p1| && p1[i1].value.Receiver?
                && (forall j :: 0 <= j < i1 ==> p1[j].value.Typed?)
                && e1.error == SelfArgument(p1[i1].value.tokens);
      var i2 :| && 0 <= i2 < |p2| && p2[i2].value.Receiver?
                && (forall j :: 0 <= j < i2 ==> p2[j].value.Typed?)
                && e2.error == SelfArgument(p2[i2].value.tokens);
      assert i1 == i2;
    }
  }

  /** Every alias that the generated client and server name through
      `request_response_name` is declared by an expansion, bound to the
      method's derived request or response type. */
  lemma ReferencedAliasesAreDeclared(e: Expansion, i: nat)
    requires e.aliases == TypeAliases(e.service.methods)
    requires i < |e.service.methods|
    ensures var d := e.service.methods[i].def;
            var names := RequestResponseName(d);
            && TypeAlias(names.0.segments[1], d.request) in e.aliases
            && TypeAlias(names.1.segments[1], d.response) in e.aliases
  {
    assert e.aliases[2 * i] == TypeAlias(e.service.methods[i].def.generatedRequest, e.service.methods[i].def.request);
    assert e.aliases[2 * i + 1] == TypeAlias(e.service.methods[i].def.generatedResponse, e.service.methods[i].def.response);
  }

  /** No check is made on identifiers after case conversion: whenever all
      method items of a trait are compilable, any two of them whose names
      convert to the same identifier both stay in the service, which then
      carries two methods with one identifier. */
  lemma CasingCollisionsAreAccepted(codec: Codec.Strategy, item: ItemTrait, camel: string -> string, i: nat, j: nat)
    requires forall k :: 0 <= k < |MethodItems(item.items)| ==> Compilable(MethodItems(item.items)[k])
    requires i < |MethodItems(item.items)| && j < |MethodItems(item.items)| && i != j
    requires camel(MethodItems(item.items)[i].sig.ident) == camel(MethodItems(item.items)[j].sig.ident)
    ensures MakeRpc(codec, item, camel).Ok?
    ensures |MakeRpc(codec, item, camel).value.service.methods| == |MethodItems(item.items)|
    ensures MakeRpc(codec, item, camel).value.service.methods[i].def.identifier
            == MakeRpc(codec, item, camel).value.service.methods[j].def.identifier
    ensures MakeRpc(codec, item, camel).value.service.methods[i].def.name == MethodItems(item.items)[i].sig.ident
    ensures MakeRpc(codec, item, camel).value.service.methods[j].def.name == MethodItems(item.items)[j].sig.ident
  {
    var make := MakeFor(item.ident, camel);
    var ms := MethodItems(item.items);
    forall k | 0 <= k < |ms|
      ensures make(ms[k]).Ok?
    {
      RequestShapeRule(ms[k], item.ident, camel);
      assert make(ms[k]) == MakeMethod(ms[k], item.ident, camel);
    }
    var methods := MakeMethods(codec, item.items, make).value;
    assert methods[i].def == MakeMethod(ms[i], item.ident, camel).value;
    assert methods[j].def == MakeMethod(ms[j], item.ident, camel).value;
  }

  /** A concrete collision: `get_total` and `getTotal` in one trait, under
      any case conversion that maps them to the same identifier. */
  lemma CasingCollisionExample(codec: Codec.Strategy, camel: string -> string)
    requires camel("get_total") == camel("getTotal")
    ensures var item := ItemTrait("Counter", [
              Method(TraitItemMethod([], Signature("get_total", Inputs([], None), Default))),
              Method(TraitItemMethod([], Signature("getTotal", Inputs([], None), Default)))]);
            var r := MakeRpc(codec, item, camel);
            && r.Ok?
            && |r.value.service.methods| == 2
            && r.value.service.methods[0].def.name != r.value.service.methods[1].def.name
            && r.value.service.methods[0].def.identifier == r.value.service.methods[1].def.identifier
  {
    var a := TraitItemMethod([], Signature("get_total", Inputs([], None), Default));
    var b := TraitItemMethod([], Signature("getTotal", Inputs([], None), Default));
    var item := ItemTrait("Counter", [Method(a), Method(b)]);
    assert MethodItems(item.items) == [a, b];
    assert Compilable(a) && Compilable(b);
    CasingCollisionsAreAccepted(codec, item, camel, 0, 1);
    assert "get_total"[3] != "getTotal"[3];
  }
}

=== FILE: status.dfy ===
/** gRPC status values as the transport library represents them: a code from
    the fixed list of the gRPC protocol and a message. */
module Status {
  import opened Outcomes

  datatype Code =
    | OkCode | Cancelled | Unknown | InvalidArgument | DeadlineExceeded
    | NotFound | AlreadyExists | PermissionDenied | ResourceExhausted
    | FailedPrecondition | Aborted | OutOfRange | Unimplemented | Internal
    | Unavailable | DataLoss | Unauthenticated

  datatype Status = Status(code: Code, message: string)

  /** The numeric value of a code on the wire (the `grpc-status` header). */
  function CodeNumber(c: Code): (n: nat)
    ensures n <= 16
  {
    match c
    case OkCode => 0
    case Cancelled => 1
    case Unknown => 2
    case InvalidArgument => 3
    case DeadlineExceeded => 4
    case NotFound => 5
    case AlreadyExists => 6
    case PermissionDenied => 7
    case ResourceExhausted => 8
    case FailedPrecondition => 9
    case Aborted => 10
    case OutOfRange => 11
    case Unimplemented => 12
    case Internal => 13
    case Unavailable => 14
    case DataLoss => 15
    case Unauthenticated => 16
  }

  /** Reads a code back from its number; numbers outside the list name no code. */
  function CodeFromNumber(n: nat): (c: Option<Code>)
    ensures c.Some? <==> n <= 16
    ensures c.Some? ==> CodeNumber(c.value) == n
  {
    if n == 0 then Some(OkCode)
    else if n == 1 then Some(Cancelled)
    else if n == 2 then Some(Unknown)
    else if n == 3 then Some(InvalidArgument)
    else if n == 4 then Some(DeadlineExceeded)
    else if n == 5 then Some(NotFound)
    else if n == 6 then Some(AlreadyExists)
    else if n == 7 then Some(PermissionDenied)
    else if n == 8 then Some(ResourceExhausted)
    else if n == 9 then Some(FailedPrecondition)
    else if n == 10 then Some(Aborted)
    else if n == 11 then Some(OutOfRange)
    else if n == 12 then Some(Unimplemented)
    else if n == 13 then Some(Internal)
    else if n == 14 then Some(Unavailable)
    else if n == 15 then Some(DataLoss)
    else if n == 16 then Some(Unauthenticated)
    else None
  }

  /** Numbering is a bijection between the codes and 0..16. */
  lemma CodeNumberRoundTrip(c: Code)
    ensures CodeFromNumber(CodeNumber(c)) == Some(c)
  {
  }

  /** Decimal text of a number, as it appears in a header value. */
  function Decimal(n: nat): (s: string)
    ensures |s| >= 1
    ensures |s| == 1 || s[0] != '0'
    ensures forall i :: 0 <= i < |s| ==> '0' <= s[i] <= '9'
  {
    var d := [(('0' as int) + n % 10) as char];
    if n < 10 then d else Decimal(n / 10) + d
  }

  /** Reads decimal text back to its number. */
  function ParseDecimal(s: string): (n: nat)
    requires forall i :: 0 <= i < |s| ==> '0' <= s[i] <= '9'
  {
    if |s| == 0 then 0 else 10 * ParseDecimal(s[..|s| - 1]) + (s[|s| - 1] as int - '0' as int)
  }

  /** `Decimal` and `ParseDecimal` are inverse on every number. */
  lemma {:induction false} DecimalRoundTrip(n: nat)
    ensures ParseDecimal(Decimal(n)) == n
  {
    var s := Decimal(n);
    if n >= 10 {
      DecimalRoundTrip(n / 10);
      assert s[..|s| - 1] == Decimal(n / 10);
    }
  }
}

=== FILE: syntax.dfy ===
/** The abstract syntax of an annotated Rust trait, as far as the binding
    compilers look at it. Token streams are replaced by structured values:
    a type is a `Ty`, an attribute is its path plus the text of its tokens. */
module Syntax {
  import opened Outcomes

  /** A type expression. Every non-tuple type (`i32`, `String`,
      `super::CountRequest`, `Vec<u8>`) is a `Path`; `()` is the empty tuple. */
  datatype Ty = Path(segments: seq<string>) | Tuple(elems: seq<Ty>)

  /** The unit type `()`. */
  const Unit: Ty := Tuple([])

  /** A token stream that is either a type or a string literal. The prototype
      compiler emits the string literal `"()"` for a missing return type. */
  datatype Tokens = TypeTokens(ty: Ty) | StrLit(text: string)

  /** `#[path tokens]`, e.g. `#[doc = "hi"]` has path `["doc"]` and tokens `= "hi"`. */
  datatype Attribute = Attribute(path: seq<string>, tokens: string)

  /** `Path::is_ident`: the path is the single identifier `name`. */
  predicate IsIdent(path: seq<string>, name: string) {
    path == [name]
  }

  /** One function parameter: a `self` receiver (with its token text, e.g.
      `&mut self`) or a typed pattern `pat: ty`. */
  datatype FnArg = Receiver(tokens: string) | Typed(pat: string, ty: Ty)

  /** An element of a comma-separated list together with its punctuation:
      `Punctuated` is followed by a comma, `End` is the final element
      without a trailing comma. */
  datatype Pair = Punctuated(value: FnArg) | End(value: FnArg)

  /** A comma-separated parameter list: the parameters followed by a comma,
      then possibly one last parameter without a comma. */
  datatype Inputs = Inputs(punctuated: seq<FnArg>, last: Option<FnArg>)

  datatype ReturnType = Default | Type(ty: Ty)

  datatype Signature = Signature(ident: string, inputs: Inputs, output: ReturnType)

  datatype TraitItemMethod = TraitItemMethod(attrs: seq<Attribute>, sig: Signature)

  /** A trait item; constants, associated types and macro invocations are `Other`. */
  datatype TraitItem = Method(fn: TraitItemMethod) | Other

  datatype ItemTrait = ItemTrait(ident: string, items: seq<TraitItem>)

  /** The parameters of a list in declaration order, punctuation dropped. */
  function Params(inputs: Inputs): seq<FnArg> {
    inputs.punctuated + (if inputs.last.Some? then [inputs.last.value] else [])
  }

  /** `Punctuated::into_pairs`: every element paired with its punctuation. */
  function IntoPairs(inputs: Inputs): (pairs: seq<Pair>)
    ensures |pairs| == |Params(inputs)|
    ensures forall i :: 0 <= i < |pairs| ==> pairs[i].value == Params(inputs)[i]
    ensures forall i :: 0 <= i < |pairs| ==> (pairs[i].End? <==> i == |inputs.punctuated|)
  {
    seq(|inputs.punctuated|, i requires 0 <= i < |inputs.punctuated| => Punctuated(inputs.punctuated[i]))
    + (if inputs.last.Some? then [End(inputs.last.value)] else [])
  }

  /** The method items of a trait, in declaration order. */
  function MethodItems(items: seq<TraitItem>): (ms: seq<TraitItemMethod>)
    ensures |ms| <= |items|
    ensures forall m :: m in ms <==> Method(m) in items
  {
    if |items| == 0 then []
    else (if items[0].Method? then [items[0].fn] else []) + MethodItems(items[1..])
  }

  /** Keeping the method items of a concatenation keeps those of each part,
      in order: the selection preserves declaration order and repetitions. */
  lemma {:induction false} MethodItemsAppend(a: seq<TraitItem>, b: seq<TraitItem>)
    ensures MethodItems(a + b) == MethodItems(a) + MethodItems(b)
  {
    if |a| > 0 {
      assert (a + b)[1..] == a[1..] + b;
      MethodItemsAppend(a[1..], b);
    } else {
      assert a + b == b;
    }
  }

  /** A single method item is kept; any other single item is dropped. */
  lemma MethodItemsSingle(it: TraitItem)
    ensures it.Method? ==> MethodItems([it]) == [it.fn]
    ensures it.Other? ==> MethodItems([it]) == []
  {
  }
}
